=== FILE: README.md ===
# Real-time poll dashboard — Dafny model of its pure logic

The dashboard is a browser client over a hosted document store: owners create
timed polls, voters join them by poll code, and everyone watches a live tally.
Almost everything it does is UI and store traffic. The logic it owns is
modelled here as pure functions:

- **Vote tallying** (`countVotes`): a snapshot of vote records becomes one
  `(option, count)` entry per option, in option order
  (`PollHelpers.CountVotes`), and the results view sums it into "Total Votes"
  (`PollHelpers.Total`).
- **Countdown** (`formatRemainingTime`): the time left before a poll expires
  is shown as a zero-clamped `mm:ss` string (`PollHelpers.FormatRemainingTime`).
  The current time is a parameter in integer milliseconds.
- **Poll-creation form**: the option-list editor (change a field, add a
  blank field, remove a field only while more than two remain, starting from
  two blank fields), and the submit handler. The handler trims the question,
  keeps the non-blank options, refuses with the form's two error messages,
  and builds the record written for the new poll (`CreatePoll`).
- **Joining a poll** (`handleJoin`): from what the store answered for the
  typed code and whether someone is logged in, the page either shows an
  error, navigates to the voting page (through the login page when needed),
  or shows a closed poll's results in place (`JoinPoll.HandleJoin`).

Files: `basics.dfy` (option, result, toast types), `decimal.dfy` (`String(n)`
for naturals, `padStart`, and a digit reader used for round trips),
`text.dfy` (ECMAScript `trim` with its concrete whitespace set),
`poll_helpers.dfy`, `create_poll.dfy`, `join_poll.dfy`.

Store reads and writes, the clock and the router are not called by the model.
What they return is a parameter:
- the vote snapshot is a `seq<string>` of choices;
- "now" is an `int` of milliseconds;
- the poll lookup is a `Lookup` value;
- the result of the poll write is a `WriteResult` value.
What the pages hand to the router and the toast context is a result field.

Behaviour of the code worth knowing, each stated by a member of the model:
- Options are not deduplicated on creation. A repeated label is tallied
  twice, and "Total Votes" then counts one vote twice
  (`PollHelpers.DuplicateLabelOvercounts`).
- The duration is not checked by the submit handler
  (`CreatePoll.DurationNotValidated`). Its bounds 10..3600, whole seconds and
  required, are attributes of the input field, so the browser's form
  validation keeps any other value from reaching the handler; the model
  accepts every integer duration.
- Kept options are stored untrimmed, in their order and number. Only the
  question is trimmed (`CreatePoll.ValidateSubmission`).
- The expiry is computed from the client clock (`Date.now()`), not from the
  server creation timestamp: the record expires `duration * 1000` ms after
  the "now" it was built with (`CreatePoll.ValidateSubmission`).
- For votes A, B, A, C over options A and B the displayed total is 3: the
  vote for C is ignored, and A:2 plus B:1 sum to 3
  (`PollHelpers.CountVotesExample`).

## Model

| member | source | states |
|---|---|---|
| PollHelpers.AddVotesCounts | src/lib/pollHelpers.ts:13-18 | counting a run of votes adds to each existing key exactly the number of votes whose choice equals it, and introduces no key |
| PollHelpers.CountVotes | src/lib/pollHelpers.ts:3-24 | one entry per option in option order, the i-th named `options[i]` with value the number of votes whose choice is exactly that label (0 when none) |
| PollHelpers.CountVotesExample | src/lib/pollHelpers.ts:3-24 | votes A, B, A, C over options A, B tally to A:2, B:1, with C ignored, so the total is 3 |
| PollHelpers.CountVotesAppendOne | src/lib/pollHelpers.ts:13-18 | one more vote for c raises exactly the entries labelled c by one and leaves the rest unchanged |
| PollHelpers.CountVotesIgnoresStrayChoice | src/lib/pollHelpers.ts:15-17 | a vote whose choice is no option leaves the whole tally unchanged |
| PollHelpers.CountVotesOrderIrrelevant | src/lib/pollHelpers.ts:13-18 | two snapshots with the same multiset of choices give the same tally |
| PollHelpers.CountVotesDuplicateLabels | src/lib/pollHelpers.ts:8-23 | entries whose labels coincide report the same full count |
| PollHelpers.Total | src/components/PollResults.tsx:38 | the displayed total is at least every entry's count, and is 0 exactly when every count is 0 |
| PollHelpers.TotalIsSumOfCounts | src/components/PollResults.tsx:38 | for any options, duplicates included, the displayed total is the sum over the option list of the number of votes for each label |
| PollHelpers.TotalCountsMatchingVotes | src/components/PollResults.tsx:38 | with distinct labels the displayed total equals the number of votes whose choice is an option, never more than the number of votes |
| PollHelpers.DuplicateLabelOvercounts | src/components/PollResults.tsx:38 | with options A, A a single vote for A is displayed as a total of 2 |
| PollHelpers.RemainingSeconds | src/lib/pollHelpers.ts:27-30 | the seconds left are the largest whole number of seconds within the gap to expiry, and 0 at or after expiry |
| PollHelpers.RemainingSecondsMonotone | src/lib/pollHelpers.ts:27-30 | the seconds left never increase as now advances |
| PollHelpers.Pad2 | src/lib/pollHelpers.ts:33-34 | a field is at least two digits, exactly two iff the number is below 100, has no leading zero when longer than two, and reads back as its number |
| PollHelpers.ClockString | src/lib/pollHelpers.ts:35 | the colon sits three characters from the end exactly when the seconds field has two digits; then the string reads back as minutes*60+seconds and starts with 0 only when it is exactly five characters; with seconds below 60 it is a well-formed countdown |
| PollHelpers.ReadClockString | src/lib/pollHelpers.ts:31-35 | minutes and seconds below 60 joined by a colon form a well-shaped countdown that reads back as minutes*60+seconds |
| PollHelpers.FormatRemainingTime | src/lib/pollHelpers.ts:26-36 | the countdown is minute digits, a colon and two second digits below 60, reads back as exactly the clamped seconds left, has no minute zero beyond the two-digit padding (so the string is determined), and is "00:00" at or after expiry |
| PollHelpers.CountdownNeverIncreases | src/lib/pollHelpers.ts:26-36 | the countdown string read back never increases as now advances |
| Decimal.Digits | src/lib/pollHelpers.ts:33-34 | the rendering of a natural is a non-empty string of decimal digits |
| Decimal.ParseDigitsOfDigits | src/lib/pollHelpers.ts:33-34 | the decimal rendering of a number reads back as that number |
| Decimal.DigitsNoLeadingZero | src/lib/pollHelpers.ts:33-34 | the rendering starts with 0 exactly when the number is 0 |
| Decimal.DigitsInjective | src/lib/pollHelpers.ts:33-34 | different numbers never render alike |
| Decimal.PadStart | src/lib/pollHelpers.ts:33-34 | padding yields max(length, width) characters ending with the original string, all prefix characters being the filler |
| Decimal.ParseDigitsLeadingZeros | src/lib/pollHelpers.ts:33-34 | leading zeros do not change a digit string's value |
| Decimal.ParseDigitsOfPadded | src/lib/pollHelpers.ts:33-34 | a zero-padded rendering reads back as the same number |
| Text.Trim | src/app/admin/create/page.tsx:44 | the trimmed string is a contiguous piece of the input, only whitespace is cut from either side, and it neither starts nor ends with whitespace |
| Text.TrimEmptyIffAllWhitespace | src/app/admin/create/page.tsx:44-51 | a string trims to empty exactly when it is all whitespace |
| Text.TrimIdempotent | src/app/admin/create/page.tsx:61 | trimming twice equals trimming once |
| CreatePoll.ChangeOption | src/app/admin/create/page.tsx:22-26 | the changed field holds the new value, the length is kept and every other field is unchanged |
| CreatePoll.ChangeThenRestore | src/app/admin/create/page.tsx:22-26 | typing the old value back undoes a change |
| CreatePoll.AddOption | src/app/admin/create/page.tsx:28-30 | one blank field is appended after the unchanged existing fields |
| CreatePoll.RemoveOption | src/app/admin/create/page.tsx:32-37 | with more than two fields exactly the field at the index is dropped and the others keep their order; otherwise the list is unchanged |
| CreatePoll.RemoveThenReinsert | src/app/admin/create/page.tsx:32-37 | reinserting the removed field at its index restores the list |
| CreatePoll.AddThenRemoveLast | src/app/admin/create/page.tsx:28-37 | removing the field just added undoes the add |
| CreatePoll.ApplyKeepsTwoFields | src/app/admin/create/page.tsx:22-37 | no single edit takes a list of at least two fields below two |
| CreatePoll.ReplayKeepsTwoFields | src/app/admin/create/page.tsx:22-37 | any run of edits from at least two fields leaves at least two fields |
| CreatePoll.InitialOptionsHaveTwoFields | src/app/admin/create/page.tsx:18 | from the opening two blank fields any run of edits leaves at least two fields |
| CreatePoll.ValidOptions | src/app/admin/create/page.tsx:51 | the kept options are no more than the fields and none of them is blank |
| CreatePoll.ValidOptionsMembership | src/app/admin/create/page.tsx:51 | a field is kept exactly when it holds a non-whitespace character |
| CreatePoll.ValidOptionsAppend | src/app/admin/create/page.tsx:51 | filtering a concatenation filters each part and keeps their order |
| CreatePoll.ValidOptionsKeepsNonBlank | src/app/admin/create/page.tsx:51 | a list without blank fields is kept whole and untrimmed |
| CreatePoll.ValidOptionsIdempotent | src/app/admin/create/page.tsx:51 | filtering the kept options again changes nothing |
| CreatePoll.ValidateSubmission | src/app/admin/create/page.tsx:43-66 | a blank question is refused first, then fewer than two non-blank options; an accepted poll has the trimmed question, as options exactly the non-blank fields in their order, number and untrimmed form (at least two), the user, is active, and expires duration*1000 ms after now |
| CreatePoll.QuestionCheckedFirst | src/app/admin/create/page.tsx:43-56 | with a blank question the verdict does not depend on the options |
| CreatePoll.DurationNotValidated | src/app/admin/create/page.tsx:59 | acceptance never depends on the duration |
| CreatePoll.EmptyQuestionRefused | src/app/admin/create/page.tsx:44-48 | the empty question is refused with "Please enter a question" |
| CreatePoll.SingleOptionRefused | src/app/admin/create/page.tsx:50-56 | one option, or one option plus a whitespace-only field, is refused with "Please enter at least two options" |
| CreatePoll.HandleSubmit | src/app/admin/create/page.tsx:39-75 | a refused form shows its refusal ("Please enter a question" or "Please enter at least two options") as an error; only an accepted form is handed to the store, as the record validation built; only a successful write navigates, to /admin/{id}, with "Poll created successfully!"; a failed write shows "Error creating poll: " followed by the store's message; loading always ends false |
| JoinPoll.HandleJoin | src/app/page.tsx:27-67 | missing poll gives "Invalid Poll Code", failed lookup "Error fetching poll"; an active poll navigates to /poll/{code}, or to the login page with that redirect when nobody is logged in; a closed poll is shown with isActive false, id the code, question and options copied; loading always ends false |
| JoinPoll.JoinHasOneEffect | src/app/page.tsx:32-65 | exactly one of an error toast, a navigation, or a shown closed poll results |
| JoinPoll.RedirectParam | src/app/login/page.tsx:22 | for a login URL written as the login prefix followed by the value, the redirect value exists exactly when the URL has that prefix, runs to the first `&` or `#` or the end, and reads each `+` as a space and every other character unchanged |
| JoinPoll.PlusCodeReadsSpace | src/app/login/page.tsx:22 | a `+` in the poll code comes back as a space: the code "a+b" continues to "/poll/a b" |
| JoinPoll.LoginRedirectRoundTrip | src/app/login/page.tsx:20-24 | for a code free of `&`, `#`, `%`, `+`, spaces and control characters, the login page's redirect parameter is exactly the voting page |
| JoinPoll.AmpersandCodeIsCut | src/app/page.tsx:52 | a code containing `&` is cut short when the login page reads the redirect back |

## Left out

- Store access, live subscriptions, the router and the toast display are not modelled; what they return is a parameter and what they are handed is a result field.
- Vote casting, one vote per user, closing a poll by hand and the expiry-driven auto-close of the admin page are not part of this model.
- The pie chart, its colour cycling and its floating-point percentage labels are not modelled.
- The authentication context, route protection and layout components are not modelled.
- src/lib/firebase.ts is only configuration and SDK references, and is not part of this model.
- PollHelpers.CountVotes: the counts live in a plain JavaScript object, so an option labelled `__proto__` behaves differently in the source, and an option labelled `hasOwnProperty` replaces that method with the number 0, so the source throws a TypeError at the first vote; the model treats every label as an ordinary key and counts normally.
- PollHelpers.RemainingSeconds: timestamps are unbounded integers of milliseconds; the precision limits of JavaScript numbers are not modelled.
- CreatePoll.ChangeOption: requires the index of an existing field, which is the only index the form passes; JavaScript's growth of an array written past its end is not modelled.
- CreatePoll.ValidateSubmission: the browser's form validation, which lets only whole durations in 10..3600 reach the handler, is not modelled; the model covers every integer duration instead. For a duration whose expiry falls outside years 1..9999 the source's `Timestamp.fromDate` throws a range error, so "Error creating poll: …" is shown and nothing is written, whereas the model builds the record and `CreatePoll.HandleSubmit` reports it as submitted. The server creation timestamp is not a field of the record.
- JoinPoll.LoginRedirectRoundTrip: the URL parser's removal of tabs and line breaks, its stripping of trailing spaces and control characters, and percent-decoding are not modelled, so the round trip is stated only for codes without `%`, spaces or control characters; `+` is excluded because it reads back as a space (`JoinPoll.PlusCodeReadsSpace`).
- JoinPoll.RedirectParam: reads only URLs written as the login prefix followed by the value, the only shape the home page builds; a `redirectTo` elsewhere in a query is not found, and `%XX` sequences are not percent-decoded.
- Strings are sequences of Unicode scalar values rather than UTF-16 code units. Every character `trim` removes is in the Basic Multilingual Plane, so the two readings agree.

=== FILE: basics.dfy ===
/**
 Small value types shared by the poll dashboard model: an optional value,
 a value-or-error result, and the toast notifications the pages show.
 */
module Basics {

  /** A value that may be absent (`null`/`undefined` in the application). */
  datatype Option<+T> = None | Some(value: T)

  /** Either a successfully built value or a user-facing error message. */
  datatype Result<+T> = Ok(value: T) | Err(message: string)

  /** The two toast styles the pages use: "success" and "error". */
  datatype ToastKind = SuccessToast | ErrorToast

  /** A notification handed to the toast context. */
  datatype Toast = Toast(message: string, kind: ToastKind)
}

=== FILE: create_poll.dfy ===
/**
 The poll-creation form: the option-list editor (change, add, remove) and
 the submit handler's validation and record building. "Now" and the
 store's answer to the write are parameters.
 */
module CreatePoll {
  import opened Basics
  import opened Text

  // ---------------------------------------------------------------------
  // Option-list editor
  // ---------------------------------------------------------------------

  /** The form opens with two blank option fields. */
  const InitialOptions: seq<string> := ["", ""]

  /** Below this many fields the remove buttons do nothing. */
  const MinOptionFields: nat := 2

  /**
   `handleOptionChange`: the field at `index` takes the typed value; the
   list keeps its length and every other field.
   */
  function ChangeOption(options: seq<string>, index: nat, value: string): (r: seq<string>)
    requires index < |options|
    ensures |r| == |options|
    ensures r[index] == value
    ensures forall j :: 0 <= j < |r| && j != index ==> r[j] == options[j]
  {
    options[index := value]
  }

  /** `handleAddOption`: one blank field is appended and nothing else changes. */
  function AddOption(options: seq<string>): (r: seq<string>)
    ensures |r| == |options| + 1
    ensures r[..|options|] == options
    ensures r[|options|] == ""
  {
    options + [""]
  }

  /**
   `handleRemoveOption`: with more than two fields, the field at `index` is
   dropped and the rest keep their order; an index matching no field, or a
   list of two or fewer fields, leaves the list as it is.
   */
  function RemoveOption(options: seq<string>, index: int): (r: seq<string>)
    ensures |options| <= MinOptionFields || !(0 <= index < |options|) ==> r == options
    ensures |options| > MinOptionFields && 0 <= index < |options| ==>
      && |r| == |options| - 1
      && (forall j :: 0 <= j < index ==> r[j] == options[j])
      && (forall j :: index <= j < |r| ==> r[j] == options[j + 1])
  {
    if |options| > MinOptionFields && 0 <= index < |options| then
      options[..index] + options[index + 1..]
    else
      options
  }

  /** Putting the removed field back where it was restores the list. */
  lemma RemoveThenReinsert(options: seq<string>, index: nat)
    requires |options| > MinOptionFields && index < |options|
    ensures var r := RemoveOption(options, index);
      r[..index] + [options[index]] + r[index..] == options
  {
    var r := RemoveOption(options, index);
    assert r[..index] == options[..index];
    assert r[index..] == options[index + 1..];
    assert options == options[..index] + [options[index]] + options[index + 1..];
  }

  /** Removing the field just added undoes the add. */
  lemma AddThenRemoveLast(options: seq<string>)
    requires |options| >= MinOptionFields
    ensures RemoveOption(AddOption(options), |options|) == options
  {
  }

  /** Typing the old value back undoes a change. */
  lemma ChangeThenRestore(options: seq<string>, index: nat, value: string)
    requires index < |options|
    ensures ChangeOption(ChangeOption(options, index, value), index, options[index]) == options
  {
  }

  /** One user action on the option list. */
  datatype Edit = Change(index: nat, value: string) | Add | Remove(index: nat)

  /** A change is only offered for a field that is on screen. */
  predicate Applicable(options: seq<string>, e: Edit) {
    e.Change? ==> e.index < |options|
  }

  function Apply(options: seq<string>, e: Edit): seq<string>
    requires Applicable(options, e)
  {
    match e
    case Change(i, v) => ChangeOption(options, i, v)
    case Add => AddOption(options)
    case Remove(i) => RemoveOption(options, i)
  }

  /** Every edit in the run is applicable to the list it meets. */
  predicate ValidRun(options: seq<string>, edits: seq<Edit>)
    decreases |edits|
  {
    |edits| == 0 ||
    (Applicable(options, edits[0]) && ValidRun(Apply(options, edits[0]), edits[1..]))
  }

  function Replay(options: seq<string>, edits: seq<Edit>): seq<string>
    requires ValidRun(options, edits)
    decreases |edits|
  {
    if |edits| == 0 then options else Replay(Apply(options, edits[0]), edits[1..])
  }

  /** No single edit takes a list of at least two fields below two. */
  lemma ApplyKeepsTwoFields(options: seq<string>, e: Edit)
    requires |options| >= MinOptionFields && Applicable(options, e)
    ensures |Apply(options, e)| >= MinOptionFields
  {
  }

  /** From any list of at least two fields, any run of edits leaves at least two. */
  lemma {:induction false} ReplayKeepsTwoFields(options: seq<string>, edits: seq<Edit>)
    requires |options| >= MinOptionFields && ValidRun(options, edits)
    ensures |Replay(options, edits)| >= MinOptionFields
    decreases |edits|
  {
    if |edits| > 0 {
      ApplyKeepsTwoFields(options, edits[0]);
      ReplayKeepsTwoFields(Apply(options, edits[0]), edits[1..]);
    }
  }

  lemma InitialOptionsHaveTwoFields(edits: seq<Edit>)
    requires ValidRun(InitialOptions, edits)
    ensures |Replay(InitialOptions, edits)| >= MinOptionFields
  {
    ReplayKeepsTwoFields(InitialOptions, edits);
  }

  // ---------------------------------------------------------------------
  // Submit
  // ---------------------------------------------------------------------

  const QuestionMissing: string := "Please enter a question"
  const TooFewOptions: string := "Please enter at least two options"
  const Created: string := "Poll created successfully!"
  const CreateFailedPrefix: string := "Error creating poll: "

  /** The fields written for a new poll (the server timestamp is left out). */
  datatype PollRecord = PollRecord(
    question: string,
    options: seq<string>,
    createdBy: Option<string>,
    isActive: bool,
    expiresAtMs: int)

  /** A field is blank when trimming leaves nothing. */
  predicate Blank(s: string) {
    Trim(s) == []
  }

  /** The options kept on submit: non-blank fields, in order, untrimmed. */
  function ValidOptions(options: seq<string>): (r: seq<string>)
    ensures |r| <= |options|
    ensures forall i :: 0 <= i < |r| ==> !Blank(r[i])
  {
    if |options| == 0 then []
    else (if Blank(options[0]) then [] else [options[0]]) + ValidOptions(options[1..])
  }

  /** A field survives exactly when it holds a non-whitespace character. */
  lemma {:induction false} ValidOptionsMembership(options: seq<string>, o: string)
    ensures o in ValidOptions(options) <==> o in options && !AllWhitespace(o)
  {
    TrimEmptyIffAllWhitespace(o);
    if |options| > 0 {
      var head := if Blank(options[0]) then [] else [options[0]];
      ValidOptionsMembership(options[1..], o);
      assert options == [options[0]] + options[1..];
      assert ValidOptions(options) == head + ValidOptions(options[1..]);
      assert o in head <==> o == options[0] && !AllWhitespace(o);
    }
  }

  /** Filtering a concatenation filters each part and keeps their order. */
  lemma {:induction false} ValidOptionsAppend(a: seq<string>, b: seq<string>)
    ensures ValidOptions(a + b) == ValidOptions(a) + ValidOptions(b)
  {
    if |a| > 0 {
      var head := if Blank(a[0]) then [] else [a[0]];
      assert (a + b)[0] == a[0];
      assert (a + b)[1..] == a[1..] + b;
      ValidOptionsAppend(a[1..], b);
      assert ValidOptions(a + b) == head + ValidOptions(a[1..] + b);
      assert ValidOptions(a) == head + ValidOptions(a[1..]);
    } else {
      assert a + b == b;
    }
  }

  /** A list without blank fields is kept whole; in particular filtering is idempotent. */
  lemma {:induction false} ValidOptionsKeepsNonBlank(options: seq<string>)
    requires forall i :: 0 <= i < |options| ==> !Blank(options[i])
    ensures ValidOptions(options) == options
  {
    if |options| > 0 {
      ValidOptionsKeepsNonBlank(options[1..]);
    }
  }

  lemma {:induction false} ValidOptionsIdempotent(options: seq<string>)
    ensures ValidOptions(ValidOptions(options)) == ValidOptions(options)
  {
    ValidOptionsKeepsNonBlank(ValidOptions(options));
  }

  /**
   The validation and record-building part of `handleSubmit`: a blank
   question is refused first, then fewer than two non-blank options; an
   accepted poll carries the trimmed question, the kept options, is active
   and expires `duration` seconds after `nowMs`. The duration is not checked.
   */
  function ValidateSubmission(question: string, options: seq<string>, duration: int,
                              nowMs: int, user: Option<string>): (r: Result<PollRecord>)
    ensures AllWhitespace(question) ==> r == Err(QuestionMissing)
    ensures !AllWhitespace(question) && |ValidOptions(options)| < 2 ==> r == Err(TooFewOptions)
    ensures r.Ok? <==> !AllWhitespace(question) && |ValidOptions(options)| >= 2
    ensures r.Ok? ==>
      && r.value.question == Trim(question) && |r.value.question| > 0
      && r.value.options == ValidOptions(options)
      && |r.value.options| >= 2
      && (forall o :: o in r.value.options <==> o in options && !AllWhitespace(o))
      && r.value.createdBy == user
      && r.value.isActive
      && r.value.expiresAtMs - nowMs == duration * 1000
  {
    TrimEmptyIffAllWhitespace(question);
    if Blank(question) then Err(QuestionMissing)
    else
      var kept := ValidOptions(options);
      if |kept| < 2 then Err(TooFewOptions)
      else
        assert forall o :: o in kept <==> o in options && !AllWhitespace(o) by {
          forall o { ValidOptionsMembership(options, o); }
        }
        Ok(PollRecord(Trim(question), kept, user, true, nowMs + duration * 1000))
  }

  /** A blank question is refused whatever the options are. */
  lemma QuestionCheckedFirst(question: string, options: seq<string>, options': seq<string>,
                             duration: int, nowMs: int, user: Option<string>)
    requires AllWhitespace(question)
    ensures ValidateSubmission(question, options, duration, nowMs, user)
         == ValidateSubmission(question, options', duration, nowMs, user)
  {
  }

  /** Acceptance never depends on the duration: any integer, even zero or negative, passes. */
  lemma DurationNotValidated(question: string, options: seq<string>, d: int, d': int,
                             nowMs: int, user: Option<string>)
    ensures ValidateSubmission(question, options, d, nowMs, user).Ok?
        == ValidateSubmission(question, options, d', nowMs, user).Ok?
  {
  }

  /** A blank question is refused: the empty string, for one. */
  lemma EmptyQuestionRefused(options: seq<string>, duration: int, nowMs: int, user: Option<string>)
    ensures ValidateSubmission("", options, duration, nowMs, user) == Err(QuestionMissing)
  {
  }

  /** A single option is refused, and so is a second option made of whitespace only. */
  lemma SingleOptionRefused(duration: int, nowMs: int, user: Option<string>)
    ensures ValidateSubmission("Q?", ["onlyone"], duration, nowMs, user) == Err(TooFewOptions)
    ensures ValidateSubmission("Q?", ["onlyone", " \t"], duration, nowMs, user) == Err(TooFewOptions)
  {
    assert !AllWhitespace("Q?") by { assert !IsWhitespace("Q?"[0]); }
    assert !AllWhitespace("onlyone") by { assert !IsWhitespace("onlyone"[0]); }
    assert AllWhitespace(" \t");
    ValidOptionsMembership(["onlyone"], "onlyone");
    ValidOptionsMembership(["onlyone", " \t"], " \t");
    assert |ValidOptions(["onlyone"])| <= 1;
    assert ValidOptions(["onlyone", " \t"]) == ValidOptions(["onlyone"]) + ValidOptions([" \t"]) by {
      ValidOptionsAppend(["onlyone"], [" \t"]);
    }
    assert ValidOptions([" \t"]) == [] by {
      ValidOptionsMembership([" \t"], " \t");
    }
  }

  /** What the store answered to the write of the new poll. */
  datatype WriteResult = Written(id: string) | WriteFailed(message: string)

  /** Everything `handleSubmit` leaves behind. */
  datatype SubmitOutcome = SubmitOutcome(
    toast: Toast,
    submitted: Option<PollRecord>,
    navigateTo: Option<string>,
    loading: bool)

  /**
   `handleSubmit` end to end: a refused form only shows its error; an
   accepted one is handed to the store, and only a successful write
   navigates, to the new poll's admin page. Loading always ends false.
   */
  function HandleSubmit(question: string, options: seq<string>, duration: int, nowMs: int,
                        user: Option<string>, store: WriteResult): (o: SubmitOutcome)
    ensures !o.loading
    ensures o.submitted.Some? <==> ValidateSubmission(question, options, duration, nowMs, user).Ok?
    ensures o.submitted.Some? ==> o.submitted.value == ValidateSubmission(question, options, duration, nowMs, user).value
    ensures o.navigateTo.Some? <==> o.submitted.Some? && store.Written?
    ensures o.navigateTo.Some? ==> o.navigateTo.value == "/admin/" + store.id
    ensures o.toast.kind == SuccessToast <==> o.navigateTo.Some?
    ensures AllWhitespace(question) ==> o.toast == Toast(QuestionMissing, ErrorToast)
    ensures ValidateSubmission(question, options, duration, nowMs, user).Err? ==>
      o.toast == Toast(ValidateSubmission(question, options, duration, nowMs, user).message, ErrorToast)
    ensures o.navigateTo.Some? ==> o.toast == Toast(Created, SuccessToast)
    ensures o.submitted.Some? && store.WriteFailed? ==>
      o.toast == Toast(CreateFailedPrefix + store.message, ErrorToast)
  {
    match ValidateSubmission(question, options, duration, nowMs, user)
    case Err(m) => SubmitOutcome(Toast(m, ErrorToast), None, None, false)
    case Ok(poll) =>
      match store
      case Written(id) => SubmitOutcome(Toast(Created, SuccessToast), Some(poll), Some("/admin/" + id), false)
      case WriteFailed(msg) => SubmitOutcome(Toast(CreateFailedPrefix + msg, ErrorToast), Some(poll), None, false)
  }
}

=== FILE: decimal.dfy ===
/**
 Decimal rendering of natural numbers, as JavaScript's `String(n)` produces
 it for a non-negative integer, and `padStart` with a one-character filler.
 `ParseDigits` is the reading direction, used to state round trips.
 */
module Decimal {

  predicate IsDigit(c: char) {
    '0' <= c <= '9'
  }

  predicate AllDigits(s: string) {
    forall i :: 0 <= i < |s| ==> IsDigit(s[i])
  }

  function DigitChar(d: nat): (c: char)
    requires d < 10
    ensures IsDigit(c)
  {
    "0123456789"[d]
  }

  /** Value of a decimal digit; other characters read as 0. */
  function DigitValue(c: char): (d: nat)
    ensures d < 10
  {
    if IsDigit(c) then (c as int - '0' as int) as nat else 0
  }

  lemma DigitValueOfDigitChar(d: nat)
    requires d < 10
    ensures DigitValue(DigitChar(d)) == d
  {
  }

  /** Shortest decimal rendering of `n`, as `String(n)` writes it. */
  function Digits(n: nat): (s: string)
    ensures 1 <= |s|
    ensures AllDigits(s)
  {
    if n < 10 then [DigitChar(n)] else Digits(n / 10) + [DigitChar(n % 10)]
  }

  /** The rendering has no leading zero, except for "0" itself. */
  lemma {:induction false} DigitsNoLeadingZero(n: nat)
    ensures Digits(n)[0] == '0' <==> n == 0
  {
    if n >= 10 {
      DigitsNoLeadingZero(n / 10);
      assert Digits(n)[0] == Digits(n / 10)[0];
    }
  }

  /** Value of a string of decimal digits; the empty string reads as 0. */
  function ParseDigits(s: string): nat {
    if |s| == 0 then 0
    else ParseDigits(s[..|s| - 1]) * 10 + DigitValue(s[|s| - 1])
  }

  /** Reading back what `Digits` wrote gives the number again. */
  lemma {:induction false} ParseDigitsOfDigits(n: nat)
    ensures ParseDigits(Digits(n)) == n
  {
    var s := Digits(n);
    if n < 10 {
      DigitValueOfDigitChar(n);
    } else {
      ParseDigitsOfDigits(n / 10);
      DigitValueOfDigitChar(n % 10);
      assert s[..|s| - 1] == Digits(n / 10);
    }
  }

  /** `Digits` is injective: different numbers never render alike. */
  lemma DigitsInjective(m: nat, n: nat)
    requires Digits(m) == Digits(n)
    ensures m == n
  {
    ParseDigitsOfDigits(m);
    ParseDigitsOfDigits(n);
  }

  function Repeat(c: char, k: nat): (s: string)
    ensures |s| == k
    ensures forall i :: 0 <= i < k ==> s[i] == c
  {
    if k == 0 then [] else [c] + Repeat(c, k - 1)
  }

  /**
   `s.padStart(width, [fill])`: when `s` is shorter than `width`, the filler
   is prepended until the length is `width`; otherwise `s` is unchanged.
   */
  function PadStart(s: string, width: nat, fill: char): (r: string)
    ensures |r| == if |s| < width then width else |s|
    ensures r[|r| - |s|..] == s
    ensures forall i :: 0 <= i < |r| - |s| ==> r[i] == fill
  {
    if |s| < width then Repeat(fill, width - |s|) + s else s
  }

  /** Leading zeros do not change the value of a digit string. */
  lemma {:induction false} ParseDigitsLeadingZeros(k: nat, s: string)
    requires AllDigits(s)
    ensures AllDigits(Repeat('0', k) + s)
    ensures ParseDigits(Repeat('0', k) + s) == ParseDigits(s)
  {
    var z := Repeat('0', k);
    if |s| == 0 {
      ParseDigitsAllZeros(k);
      assert z + s == z;
    } else {
      var init := s[..|s| - 1];
      ParseDigitsLeadingZeros(k, init);
      assert (z + s)[..|z + s| - 1] == z + init;
    }
  }

  lemma {:induction false} ParseDigitsAllZeros(k: nat)
    ensures AllDigits(Repeat('0', k))
    ensures ParseDigits(Repeat('0', k)) == 0
  {
    if k > 0 {
      var z := Repeat('0', k);
      ParseDigitsAllZeros(k - 1);
      assert z[..k - 1] == Repeat('0', k - 1);
    }
  }

  /** Zero-padding a rendered number keeps it readable as the same number. */
  lemma ParseDigitsOfPadded(n: nat, width: nat)
    ensures AllDigits(PadStart(Digits(n), width, '0'))
    ensures ParseDigits(PadStart(Digits(n), width, '0')) == n
  {
    var s := Digits(n);
    ParseDigitsOfDigits(n);
    if |s| < width {
      var z := Repeat('0', width - |s|);
      ParseDigitsLeadingZeros(width - |s|, s);
      assert PadStart(s, width, '0') == z + s;
    }
  }
}

=== FILE: join_poll.dfy ===
/**
 The home page's join handler: a poll code is looked up and, depending on
 what the store answered and whether someone is logged in, the page shows
 an error, navigates to the voting page (directly or through the login
 page), or shows the results of a closed poll in place.
 */
module JoinPoll {
  import opened Basics

  const InvalidCode: string := "Invalid Poll Code"
  const FetchFailed: string := "Error fetching poll"
  const LoginRedirectPrefix: string := "/login?redirectTo="

  /** What the store answered for the poll document named by the code. */
  datatype Lookup =
    | Missing
    | Failed
    | Found(question: string, options: seq<string>, isActive: bool)

  /** The poll data the page keeps to render a closed poll's results. */
  datatype PollView = PollView(question: string, options: seq<string>, isActive: bool, id: string)

  /** The page state the handler touches. */
  datatype JoinState = JoinState(pollData: Option<PollView>, loading: bool)

  /** The handler's resulting state and its outward effects. */
  datatype JoinOutcome = JoinOutcome(state: JoinState, toast: Option<Toast>, navigateTo: Option<string>)

  /** The voting page of a poll. */
  function VotePath(code: string): string {
    "/poll/" + code
  }

  /** The login page, told to continue to the voting page afterwards. */
  function LoginPath(code: string): string {
    LoginRedirectPrefix + VotePath(code)
  }

  /**
   `handleJoin`: previous poll data is cleared and loading starts, so the
   outcome depends on nothing the page showed before; then a
   missing poll reports "Invalid Poll Code", a failed lookup reports "Error
   fetching poll", an active poll navigates to its voting page (through the
   login page when nobody is logged in), and a closed poll is shown in place
   with its question and options under the typed code. Loading always ends.
   */
  function HandleJoin(code: string, lookup: Lookup, loggedIn: bool): (o: JoinOutcome)
    ensures !o.state.loading
    ensures o.toast.Some? <==> !lookup.Found?
    ensures o.toast.Some? ==> o.toast.value.kind == ErrorToast
    ensures lookup.Missing? ==> o.toast == Some(Toast(InvalidCode, ErrorToast))
    ensures lookup.Failed? ==> o.toast == Some(Toast(FetchFailed, ErrorToast))
    ensures o.navigateTo.Some? <==> lookup.Found? && lookup.isActive
    ensures o.navigateTo.Some? ==> o.navigateTo.value == if loggedIn then VotePath(code) else LoginPath(code)
    ensures o.state.pollData.Some? <==> lookup.Found? && !lookup.isActive
    ensures o.state.pollData.Some? ==>
      o.state.pollData.value == PollView(lookup.question, lookup.options, false, code)
  {
    var cleared := JoinState(None, true);
    match lookup
    case Missing => JoinOutcome(cleared.(loading := false), Some(Toast(InvalidCode, ErrorToast)), None)
    case Failed => JoinOutcome(cleared.(loading := false), Some(Toast(FetchFailed, ErrorToast)), None)
    case Found(question, options, isActive) =>
      if isActive then
        var target := if loggedIn then VotePath(code) else LoginPath(code);
        JoinOutcome(cleared.(loading := false), None, Some(target))
      else
        var view := PollView(question, options, false, code);
        JoinOutcome(cleared.(pollData := Some(view), loading := false), None, None)
  }

  /** Exactly one of: an error, a navigation, a closed poll shown. */
  lemma JoinHasOneEffect(code: string, lookup: Lookup, loggedIn: bool)
    ensures var o := HandleJoin(code, lookup, loggedIn);
      (if o.toast.Some? then 1 else 0) + (if o.navigateTo.Some? then 1 else 0)
        + (if o.state.pollData.Some? then 1 else 0) == 1
  {
  }

  // ---------------------------------------------------------------------
  // The login page reading its redirect target back
  // ---------------------------------------------------------------------

  /**
   Characters that survive URL parsing and query reading unchanged: not `&`
   or `#`, which end the value, not `%` or `+`, which decode, and nothing at
   or below the space, since tabs and line breaks are removed and trailing
   spaces and control characters are stripped.
   */
  predicate QuerySafe(code: string) {
    forall i :: 0 <= i < |code| ==> code[i] !in {'&', '#', '%', '+'} && code[i] > ' '
  }

  /** Length of the longest prefix of `s` free of `&` and `#`. */
  function ValueLength(s: string): (n: nat)
    ensures n <= |s|
    ensures forall i :: 0 <= i < n ==> s[i] != '&' && s[i] != '#'
    ensures n < |s| ==> s[n] == '&' || s[n] == '#'
  {
    if |s| == 0 || s[0] == '&' || s[0] == '#' then 0 else 1 + ValueLength(s[1..])
  }

  /** Query reading turns `+` into a space. */
  function PlusAsSpace(c: char): char {
    if c == '+' then ' ' else c
  }

  /** A query value with every `+` read as a space; nothing else changes. */
  function DecodePlus(s: string): (r: string)
    ensures |r| == |s|
    ensures forall i :: 0 <= i < |s| ==> r[i] == PlusAsSpace(s[i])
  {
    seq(|s|, i requires 0 <= i < |s| => PlusAsSpace(s[i]))
  }

  /** A value without `+` reads back unchanged. */
  lemma DecodePlusOfPlain(s: string)
    requires forall i :: 0 <= i < |s| ==> s[i] != '+'
    ensures DecodePlus(s) == s
  {
  }

  /**
   `searchParams.get("redirectTo")` for a URL of the login page written as
   `LoginRedirectPrefix` followed by the value: the value runs to the next
   `&` or `#`, and every `+` in it reads as a space.
   */
  function RedirectParam(url: string): (r: Option<string>)
    ensures r.Some? <==> LoginRedirectPrefix <= url
    ensures r.Some? ==>
      && |LoginRedirectPrefix| + |r.value| <= |url|
      && (forall i :: 0 <= i < |r.value| ==>
            && url[|LoginRedirectPrefix| + i] != '&' && url[|LoginRedirectPrefix| + i] != '#'
            && r.value[i] == PlusAsSpace(url[|LoginRedirectPrefix| + i]))
      && (|LoginRedirectPrefix| + |r.value| < |url| ==>
            url[|LoginRedirectPrefix| + |r.value|] in {'&', '#'})
  {
    if LoginRedirectPrefix <= url then
      var rest := url[|LoginRedirectPrefix|..];
      var raw := rest[..ValueLength(rest)];
      Some(DecodePlus(raw))
    else None
  }

  /** The login page continues exactly to the voting page of a query-safe code. */
  lemma {:induction false} LoginRedirectRoundTrip(code: string)
    requires QuerySafe(code)
    ensures RedirectParam(LoginPath(code)) == Some(VotePath(code))
  {
    var url := LoginPath(code);
    assert url[..|LoginRedirectPrefix|] == LoginRedirectPrefix;
    var rest := url[|LoginRedirectPrefix|..];
    assert rest == VotePath(code);
    forall i | 0 <= i < |rest|
      ensures rest[i] != '&' && rest[i] != '#'
    {
      if i >= 6 {
        assert rest[i] == code[i - 6];
      }
    }
    ValueLengthOfSafe(rest);
    assert rest[..|rest|] == rest;
    forall i | 0 <= i < |rest|
      ensures rest[i] != '+'
    {
      if i >= 6 {
        assert rest[i] == code[i - 6];
      }
    }
    DecodePlusOfPlain(rest);
  }

  lemma {:induction false} ValueLengthOfSafe(s: string)
    requires forall i :: 0 <= i < |s| ==> s[i] != '&' && s[i] != '#'
    ensures ValueLength(s) == |s|
  {
    if |s| > 0 {
      ValueLengthOfSafe(s[1..]);
    }
  }

  /** A code containing `&` is cut short when the login page reads it back. */
  lemma AmpersandCodeIsCut()
    ensures RedirectParam(LoginPath("a&b")) == Some(VotePath("a"))
  {
    var url := LoginPath("a&b");
    assert url[..|LoginRedirectPrefix|] == LoginRedirectPrefix;
    var rest := url[|LoginRedirectPrefix|..];
    assert rest == "/poll/a&b";
    ValueLengthStopsAt(rest, 7);
    assert rest[..7] == "/poll/a" == VotePath("a");
    DecodePlusOfPlain(rest[..7]);
    assert RedirectParam(url) == Some(DecodePlus(rest[..ValueLength(rest)]));
  }

  /** A `+` in the code comes back as a space: "a+b" reads back as "/poll/a b". */
  lemma PlusCodeReadsSpace()
    ensures RedirectParam(LoginPath("a+b")) == Some("/poll/a b")
  {
    var url := LoginPath("a+b");
    assert url[..|LoginRedirectPrefix|] == LoginRedirectPrefix;
    var rest := url[|LoginRedirectPrefix|..];
    assert rest == "/poll/a+b";
    ValueLengthOfSafe(rest);
    assert rest[..|rest|] == rest;
    var d := DecodePlus(rest);
    assert d == "/poll/a b" by {
      assert |d| == 9 && d[7] == ' ';
      forall i | 0 <= i < 9 && i != 7
        ensures d[i] == "/poll/a b"[i]
      {
        assert d[i] == rest[i];
      }
    }
  }

  lemma {:induction false} ValueLengthStopsAt(s: string, k: nat)
    requires k < |s| && (s[k] == '&' || s[k] == '#')
    requires forall i :: 0 <= i < k ==> s[i] != '&' && s[i] != '#'
    ensures ValueLength(s) == k
  {
    if k > 0 {
      ValueLengthStopsAt(s[1..], k - 1);
    }
  }
}

=== FILE: poll_helpers.dfy ===
/**
 The two pure helpers of the dashboard: tallying a snapshot of vote records
 against a poll's ordered option list, and rendering the time left before
 a poll expires as an `mm:ss` countdown.

 A vote snapshot is the sequence of the `choice` fields of its documents.
 "Now" is a parameter in integer milliseconds instead of a clock read.
 */
module PollHelpers {
  import opened Decimal

  // ---------------------------------------------------------------------
  // Vote tallying
  // ---------------------------------------------------------------------

  /** One slice of the results chart: an option label and its vote count. */
  datatype Entry = Entry(name: string, value: nat)

  /** Every option label starts at zero; a repeated label is one key. */
  function InitCounts(options: seq<string>): map<string, nat> {
    map o | o in options :: 0
  }

  /** One vote record: its choice is counted only when it is already a key. */
  function Bump(counts: map<string, nat>, choice: string): map<string, nat> {
    if choice in counts then counts[choice := counts[choice] + 1] else counts
  }

  /** The votes of a snapshot, processed in document order. */
  function AddVotes(counts: map<string, nat>, votes: seq<string>): map<string, nat>
    decreases |votes|
  {
    if |votes| == 0 then counts else AddVotes(Bump(counts, votes[0]), votes[1..])
  }

  /**
   Counting a run of votes into a map adds, to every existing key, the number
   of votes for exactly that key, and never introduces a key.
   */
  lemma {:induction false} AddVotesCounts(counts: map<string, nat>, votes: seq<string>)
    ensures AddVotes(counts, votes).Keys == counts.Keys
    ensures forall k :: k in counts ==> AddVotes(counts, votes)[k] == counts[k] + multiset(votes)[k]
    decreases |votes|
  {
    if |votes| > 0 {
      AddVotesCounts(Bump(counts, votes[0]), votes[1..]);
      assert votes == [votes[0]] + votes[1..];
    }
  }

  /**
   `countVotes`: one entry per option, in option order, holding the number of
   votes whose choice is exactly that option. Choices naming no option are
   ignored; an option named twice reports the same full count twice.
   */
  function CountVotes(votes: seq<string>, options: seq<string>): (r: seq<Entry>)
    ensures |r| == |options|
    ensures forall i :: 0 <= i < |r| ==> r[i].name == options[i]
    ensures forall i :: 0 <= i < |r| ==> r[i].value == multiset(votes)[options[i]]
  {
    var counts := AddVotes(InitCounts(options), votes);
    AddVotesCounts(InitCounts(options), votes);
    seq(|options|, i requires 0 <= i < |options| =>
      Entry(options[i], if options[i] in counts then counts[options[i]] else 0))
  }

  /** The example tally: ["A","B","A","C"] over ["A","B"] gives A:2, B:1, and "C" is dropped. */
  lemma CountVotesExample()
    ensures CountVotes(["A", "B", "A", "C"], ["A", "B"]) == [Entry("A", 2), Entry("B", 1)]
    ensures Total(CountVotes(["A", "B", "A", "C"], ["A", "B"])) == 3
  {
    var votes := ["A", "B", "A", "C"];
    assert multiset(votes)["A"] == 2;
    assert multiset(votes)["B"] == 1;
    var r := CountVotes(votes, ["A", "B"]);
    assert r[1..] == [Entry("B", 1)];
    assert r[0].value == 2;
    assert Total(r[1..]) == 1 by {
      assert r[1..][1..] == [];
    }
  }

  /** One more vote for `c` raises exactly the entries labelled `c`, by one. */
  lemma CountVotesAppendOne(votes: seq<string>, options: seq<string>, c: string)
    ensures |CountVotes(votes + [c], options)| == |CountVotes(votes, options)|
    ensures forall i :: 0 <= i < |options| ==>
      CountVotes(votes + [c], options)[i].value
        == CountVotes(votes, options)[i].value + (if options[i] == c then 1 else 0)
  {
    assert multiset(votes + [c]) == multiset(votes) + multiset{c};
  }

  /** A vote whose choice is not an option leaves the whole tally unchanged. */
  lemma CountVotesIgnoresStrayChoice(votes: seq<string>, options: seq<string>, c: string)
    requires c !in options
    ensures CountVotes(votes + [c], options) == CountVotes(votes, options)
  {
    var r, r' := CountVotes(votes, options), CountVotes(votes + [c], options);
    assert multiset(votes + [c]) == multiset(votes) + multiset{c};
    forall i | 0 <= i < |options|
      ensures r'[i] == r[i]
    {
      assert options[i] != c;
    }
  }

  /** The tally depends only on the multiset of choices, not on their order. */
  lemma CountVotesOrderIrrelevant(votes: seq<string>, votes': seq<string>, options: seq<string>)
    requires multiset(votes) == multiset(votes')
    ensures CountVotes(votes, options) == CountVotes(votes', options)
  {
  }

  /** Entries whose labels coincide carry the same count. */
  lemma CountVotesDuplicateLabels(votes: seq<string>, options: seq<string>, i: nat, j: nat)
    requires i < |options| && j < |options| && options[i] == options[j]
    ensures CountVotes(votes, options)[i] == CountVotes(votes, options)[j]
  {
  }

  /** "Total Votes" of the results view: the sum of all entry values. */
  function Total(entries: seq<Entry>): (t: nat)
    ensures forall i :: 0 <= i < |entries| ==> entries[i].value <= t
    ensures t == 0 <==> forall i :: 0 <= i < |entries| ==> entries[i].value == 0
  {
    if |entries| == 0 then 0 else entries[0].value + Total(entries[1..])
  }

  /** Number of votes whose choice is one of `options`. */
  function CountIn(votes: seq<string>, options: seq<string>): (n: nat)
    ensures n <= |votes|
  {
    if |votes| == 0 then 0
    else (if votes[0] in options then 1 else 0) + CountIn(votes[1..], options)
  }

  predicate Distinct(options: seq<string>) {
    forall i, j :: 0 <= i < j < |options| ==> options[i] != options[j]
  }

  /** Sum over the option list of the number of votes for each label. */
  function SumOfCounts(votes: seq<string>, options: seq<string>): nat {
    if |options| == 0 then 0
    else multiset(votes)[options[0]] + SumOfCounts(votes, options[1..])
  }

  lemma {:induction false} TotalIsSumOfCounts(votes: seq<string>, options: seq<string>)
    ensures Total(CountVotes(votes, options)) == SumOfCounts(votes, options)
  {
    if |options| > 0 {
      var r := CountVotes(votes, options);
      assert r[1..] == CountVotes(votes, options[1..]);
      TotalIsSumOfCounts(votes, options[1..]);
    }
  }

  lemma {:induction false} CountInCons(votes: seq<string>, o: string, rest: seq<string>)
    requires o !in rest
    ensures CountIn(votes, [o] + rest) == multiset(votes)[o] + CountIn(votes, rest)
  {
    if |votes| > 0 {
      CountInCons(votes[1..], o, rest);
      assert votes == [votes[0]] + votes[1..];
    }
  }

  lemma {:induction false} CountInNoOptions(votes: seq<string>)
    ensures CountIn(votes, []) == 0
  {
    if |votes| > 0 {
      CountInNoOptions(votes[1..]);
    }
  }

  lemma {:induction false} SumOfCountsDistinct(votes: seq<string>, options: seq<string>)
    requires Distinct(options)
    ensures SumOfCounts(votes, options) == CountIn(votes, options)
  {
    if |options| > 0 {
      var rest := options[1..];
      assert options == [options[0]] + rest;
      assert options[0] !in rest;
      assert Distinct(rest);
      SumOfCountsDistinct(votes, rest);
      CountInCons(votes, options[0], rest);
      assert SumOfCounts(votes, options) == multiset(votes)[options[0]] + SumOfCounts(votes, rest);
    } else {
      CountInNoOptions(votes);
    }
  }

  /**
   With distinct option labels the displayed total is the number of votes
   whose choice is an option, so it never exceeds the number of votes.
   */
  lemma {:induction false} TotalCountsMatchingVotes(votes: seq<string>, options: seq<string>)
    requires Distinct(options)
    ensures Total(CountVotes(votes, options)) == CountIn(votes, options)
    ensures Total(CountVotes(votes, options)) <= |votes|
  {
    TotalIsSumOfCounts(votes, options);
    SumOfCountsDistinct(votes, options);
  }

  /** With a repeated label one vote is counted twice in the displayed total. */
  lemma DuplicateLabelOvercounts()
    ensures Total(CountVotes(["A"], ["A", "A"])) == 2
  {
    var r := CountVotes(["A"], ["A", "A"]);
    assert multiset(["A"])["A"] == 1;
    assert r[1..][1..] == [];
  }

  // ---------------------------------------------------------------------
  // Countdown
  // ---------------------------------------------------------------------


  /**
   Whole seconds left before `expiresMs`, clamped at zero. For the positive
   divisor used here Dafny's `/` rounds down, as `Math.floor` does.
   */
  function RemainingSeconds(expiresMs: int, now: int): (delta: nat)
    ensures var gap := if expiresMs > now then expiresMs - now else 0;
      delta * 1000 <= gap < (delta + 1) * 1000
    ensures expiresMs <= now ==> delta == 0
  {
    var d := (expiresMs - now) / 1000;
    if d < 0 then 0 else d
  }

  /** The seconds left never grow as time advances. */
  lemma RemainingSecondsMonotone(expiresMs: int, now: int, later: int)
    requires now <= later
    ensures RemainingSeconds(expiresMs, later) <= RemainingSeconds(expiresMs, now)
  {
  }

  /**
   Shape of an `m...m:ss` countdown: at least two minute digits, a colon,
   and exactly two second digits reading below 60.
   */
  predicate IsClock(s: string) {
    && |s| >= 5 && s[|s| - 3] == ':'
    && AllDigits(s[..|s| - 3]) && AllDigits(s[|s| - 2..])
    && ParseDigits(s[|s| - 2..]) < 60
  }

  /** Reads a countdown back into seconds: minutes times 60 plus seconds. */
  function ReadClock(s: string): nat
    requires |s| >= 3
  {
    ParseDigits(s[..|s| - 3]) * 60 + ParseDigits(s[|s| - 2..])
  }

  lemma DigitsBelowHundred(n: nat)
    ensures n < 100 ==> |Digits(n)| <= 2
  {
    if 10 <= n < 100 {
      assert Digits(n) == Digits(n / 10) + [DigitChar(n % 10)];
    }
  }

  /** `String(n).padStart(2, "0")`: at least two digits, reading back as `n`. */
  function Pad2(n: nat): (r: string)
    ensures |r| >= 2 && AllDigits(r) && ParseDigits(r) == n
    ensures |r| == 2 <==> n < 100
    ensures |r| > 2 ==> r[0] != '0'
  {
    ParseDigitsOfPadded(n, 2);
    DigitsNoLeadingZero(n);
    DigitsBelowHundred(n);
    var r := PadStart(Digits(n), 2, '0');
    assert |r| == 2 ==> ParseDigits(r) < 100 by {
      if |r| == 2 { TwoDigitsBelowHundred(r); }
    }
    r
  }

  lemma TwoDigitsBelowHundred(s: string)
    requires |s| == 2
    ensures ParseDigits(s) < 100
  {
    assert ParseDigits(s[..1]) < 10 by {
      assert s[..1][..0] == [];
    }
  }

  /**
   `${mm}:${ss}` from a minute and a second count: a colon three characters
   from the end, no leading zero beyond the two-digit padding, and, for a
   two-digit seconds field, a reading of minutes*60+seconds.
   */
  function ClockString(minutes: nat, seconds: nat): (r: string)
    ensures |r| >= 5 && r[|r| - 3] == ':' <==> seconds < 100
    ensures seconds < 100 && |r| > 5 ==> r[0] != '0'
    ensures seconds < 100 ==> ReadClock(r) == minutes * 60 + seconds
    ensures seconds < 60 ==> IsClock(r)
  {
    ClockSeparator(Pad2(minutes), Pad2(seconds));
    ClockStringValue(minutes, seconds);
    ClockStringShape(minutes, seconds);
    Pad2(minutes) + ":" + Pad2(seconds)
  }

  lemma ClockStringValue(minutes: nat, seconds: nat)
    ensures seconds < 100 ==>
      ReadClock(Pad2(minutes) + ":" + Pad2(seconds)) == minutes * 60 + seconds
  {
    if seconds < 100 {
      ClockValue(Pad2(minutes), Pad2(seconds));
    }
  }

  lemma ClockStringShape(minutes: nat, seconds: nat)
    ensures seconds < 60 ==> IsClock(Pad2(minutes) + ":" + Pad2(seconds))
  {
    if seconds < 60 {
      ClockShape(Pad2(minutes), Pad2(seconds));
    }
  }

  /** The colon sits three from the end exactly when the seconds field has two digits. */
  lemma ClockSeparator(mm: string, ss: string)
    requires |mm| >= 2 && |ss| >= 2 && AllDigits(ss)
    ensures var r := mm + ":" + ss;
      && (|r| >= 5 && r[|r| - 3] == ':' <==> |ss| == 2)
      && r[0] == mm[0]
  {
    var r := mm + ":" + ss;
    if |ss| > 2 {
      assert r[|r| - 3] == ss[|ss| - 3];
      assert IsDigit(ss[|ss| - 3]);
    }
  }

  lemma ClockShape(mm: string, ss: string)
    requires |mm| >= 2 && |ss| == 2 && AllDigits(mm) && AllDigits(ss) && ParseDigits(ss) < 60
    ensures IsClock(mm + ":" + ss)
  {
    var r := mm + ":" + ss;
    assert r[..|r| - 3] == mm;
    assert r[|r| - 2..] == ss;
  }

  lemma {:induction false} ClockValue(mm: string, ss: string)
    requires |mm| >= 2 && |ss| == 2
    ensures ReadClock(mm + ":" + ss) == ParseDigits(mm) * 60 + ParseDigits(ss)
  {
    var r := mm + ":" + ss;
    assert r[..|r| - 3] == mm;
    assert r[|r| - 2..] == ss;
  }

  lemma ClockStringZero()
    ensures ClockString(0, 0) == "00:00"
  {
    assert Digits(0) == "0";
    assert PadStart("0", 2, '0') == Repeat('0', 1) + "0" == "00";
  }

  /** A clock string with a seconds field below 60 is well formed and reads back as its total. */
  lemma {:induction false} ReadClockString(minutes: nat, seconds: nat)
    requires seconds < 60
    ensures IsClock(ClockString(minutes, seconds))
    ensures ReadClock(ClockString(minutes, seconds)) == minutes * 60 + seconds
  {
    ClockShape(Pad2(minutes), Pad2(seconds));
    ClockValue(Pad2(minutes), Pad2(seconds));
  }

  /**
   `formatRemainingTime`: the countdown reads back as exactly the clamped
   number of whole seconds left, with minutes and seconds zero-padded to two
   digits; at or after expiry it is "00:00".
   */
  function FormatRemainingTime(expiresMs: int, now: int): (r: string)
    ensures IsClock(r)
    ensures ReadClock(r) == RemainingSeconds(expiresMs, now)
    ensures expiresMs <= now ==> r == "00:00"
    ensures |r| > 5 ==> r[0] != '0'
  {
    var delta := RemainingSeconds(expiresMs, now);
    var minutes, seconds := delta / 60, delta % 60;
    assert minutes * 60 + seconds == delta;
    ReadClockString(minutes, seconds);
    ClockStringZero();
    ClockString(minutes, seconds)
  }

  /** The displayed countdown never increases as `now` advances. */
  lemma CountdownNeverIncreases(expiresMs: int, now: int, later: int)
    requires now <= later
    ensures ReadClock(FormatRemainingTime(expiresMs, later))
         <= ReadClock(FormatRemainingTime(expiresMs, now))
  {
    RemainingSecondsMonotone(expiresMs, now, later);
  }
}

=== FILE: text.dfy ===
/**
 `String.prototype.trim` as ECMAScript defines it: leading and trailing
 code units from the WhiteSpace and LineTerminator productions are removed.
 */
module Text {

  /** ECMAScript WhiteSpace (TAB, VT, FF, SP, NBSP, ZWNBSP, category Zs) and LineTerminator. */
  predicate IsWhitespace(c: char) {
    || c == '\t' || c == '\U{000B}' || c == '\U{000C}' || c == ' '
    || c == '\U{00A0}' || c == '\U{FEFF}'
    || c == '\U{1680}' || ('\U{2000}' <= c <= '\U{200A}')
    || c == '\U{202F}' || c == '\U{205F}' || c == '\U{3000}'
    || c == '\n' || c == '\r' || c == '\U{2028}' || c == '\U{2029}'
  }

  predicate AllWhitespace(s: string) {
    forall i :: 0 <= i < |s| ==> IsWhitespace(s[i])
  }

  /** Index of the first non-whitespace character at or after `i` (or `|s|`). */
  function SkipLeading(s: string, i: nat): (j: nat)
    requires i <= |s|
    ensures i <= j <= |s|
    ensures forall k :: i <= k < j ==> IsWhitespace(s[k])
    ensures j < |s| ==> !IsWhitespace(s[j])
    decreases |s| - i
  {
    if i < |s| && IsWhitespace(s[i]) then SkipLeading(s, i + 1) else i
  }

  /** End of `s[..k]` once trailing whitespace down to `lo` is dropped. */
  function SkipTrailing(s: string, lo: nat, k: nat): (j: nat)
    requires lo <= k <= |s|
    ensures lo <= j <= k
    ensures forall i :: j <= i < k ==> IsWhitespace(s[i])
    ensures j > lo ==> !IsWhitespace(s[j - 1])
  {
    if k > lo && IsWhitespace(s[k - 1]) then SkipTrailing(s, lo, k - 1) else k
  }

  /**
   The trimmed string is a contiguous piece of `s`; everything cut off on
   either side is whitespace, and the piece neither starts nor ends with it.
   */
  function Trim(s: string): (r: string)
    ensures exists a, b ::
              && 0 <= a <= b <= |s| && r == s[a..b]
              && AllWhitespace(s[..a]) && AllWhitespace(s[b..])
    ensures |r| > 0 ==> !IsWhitespace(r[0]) && !IsWhitespace(r[|r| - 1])
  {
    var a := SkipLeading(s, 0);
    var b := SkipTrailing(s, a, |s|);
    assert AllWhitespace(s[..a]) && AllWhitespace(s[b..]);
    s[a..b]
  }

  /** A string trims to "" exactly when it consists of whitespace only. */
  lemma TrimEmptyIffAllWhitespace(s: string)
    ensures Trim(s) == [] <==> AllWhitespace(s)
  {
    var a := SkipLeading(s, 0);
    var b := SkipTrailing(s, a, |s|);
    if !AllWhitespace(s) {
      var k :| 0 <= k < |s| && !IsWhitespace(s[k]);
      assert a <= k;
      assert b > a;
    }
  }

  /** Trimming twice is the same as trimming once. */
  lemma TrimIdempotent(s: string)
    ensures Trim(Trim(s)) == Trim(s)
  {
    var r := Trim(s);
    if |r| > 0 {
      assert SkipLeading(r, 0) == 0;
      assert SkipTrailing(r, 0, |r|) == |r|;
      assert r[0..|r|] == r;
    }
  }
}
